=== FILE: README.md ===
# Smart Study Planner core, modelled in Dafny

The study planner page (`Third_Page.js`) keeps a task list in the browser.
It can generate a daily study timetable and run a 25-minute study countdown.
The page is mostly DOM code. This project models the logic underneath it as
pure functions over immutable values. The clock, the storage and the DOM
become plain inputs and outputs.

- `Timetable` (`timetable.dfy`) models `generateTimetable`. It reads the two
  times and the comma-separated subject text. It rejects a window whose end
  is not after its start, and a window whose blocks come out shorter than
  15 minutes. Otherwise it lays out the subjects in input order, with one
  15-minute break between each pair, and formats each row's `HH:MM - HH:MM`
  cell. `TimetableExamples` holds worked cases of the generator.
- `Tasks` (`tasks.dfy`) covers the task list. It models the form's add,
  `toggleComplete`, `deleteTask` (the `confirm` answer is a boolean input),
  the three filters, the counts and rounded percentage of `updateProgress`,
  and the category icon. `Positions` describes each filtered view
  independently, as the increasing list of shown positions.
- `Alarms` (`alarms.dfy`) models the due-alarm check that runs on every
  render. Instants are abstract integers. The due instant comes from a
  function parameter that maps a task's date and time to an instant, or to
  `None` for a date the browser cannot read.
- `Timer` (`timer.dfy`) is the countdown as a state machine over
  `(remaining, running)`. Its transitions are start, pause, reset, the
  start/pause button, and the tick of the interval callback.
- `TaskView` (`taskview.dfy`) covers what the task buttons do when a filter
  is active (see Findings).
- `Text` (`text.dfy`) holds `split` with a one-character separator and
  ECMAScript `trim`. `Numerals` (`numerals.dfy`) holds decimal `toString`,
  `padStart(2, '0')`, the `MM:SS`/`HH:MM` label and the 12-hour clock text.
  Each format has a parser, and a proof that the parser reads the text back
  to the original value.

Behaviour of the code worth knowing:

- One subject from 09:00 to 09:10 is rejected as "not enough time". The
  15-minute minimum block applies even when there is no break to fit.
- `toggleComplete` has no bounds check, so `Tasks.Toggle` requires a valid
  index. `splice` past the end removes nothing, so `Tasks.Delete` leaves
  the list unchanged there.
- Nothing in the script rejects an empty title, date or time, so
  `Tasks.Add` accepts any strings.
- Drag-and-drop only moves DOM nodes. The task list is never reordered.
- Fewer than `n` minutes are left unused at the end of a timetable, where
  `n` is the number of subjects (`Timetable.Generate`).
- The rounded percentage can read 100% while a task is still pending, for
  example 199 of 200 done (`Tasks.FullPercentWithPendingTask`).

## Model

| member | source | states |
|---|---|---|
| Text.Split | Third_Page.js:275 | `split(',')` never yields an empty list, and no piece contains the separator |
| Text.JoinSplit | Third_Page.js:275 | joining the pieces with the separator gives the input back, so splitting loses nothing |
| Text.SplitJoin | Third_Page.js:275 | the other half of the round trip: separator-free pieces are recovered by splitting their join |
| Text.TrimStart | Third_Page.js:275 | the result is a suffix of the input; every dropped character is ECMAScript white space; the result does not start with white space |
| Text.TrimEnd | Third_Page.js:275 | the result is a prefix of the input; every dropped character is white space; the result does not end with white space |
| Text.Trim | Third_Page.js:275 | `trim()` returns the input without its leading and trailing white space: an infix that neither starts nor ends with white space, with only white space before and after it |
| Text.TrimIsUnique | Third_Page.js:275 | that description has exactly one solution: any string that is the input without its leading and trailing white space is `Trim` of it |
| Text.TrimIdempotent | Third_Page.js:275 | trimming a trimmed subject changes nothing |
| Numerals.Digits | Third_Page.js:302-306 | `toString()` of a non-negative integer is all digits, has one digit exactly below ten, and has no leading zero |
| Numerals.DigitsRoundTrip | Third_Page.js:302-306 | the decimal text reads back as the number it shows |
| Numerals.PadStart2 | Third_Page.js:306 | `padStart(2,'0')` keeps the string as its suffix, pads it with zeros only, and reaches length two |
| Numerals.Padded | Third_Page.js:306 | a padded number is all digits, at least two of them, and exactly two below 100 |
| Numerals.PaddedRoundTrip | Third_Page.js:306 | the leading pad zero does not change the value read back |
| Numerals.SexagesimalLabel | Third_Page.js:302-306 | the `floor(x/60)`:`x%60` label has its colon three places from the end; below 6000 it is exactly five characters, two digits, a colon and two digits |
| Numerals.SexagesimalRoundTrip | Third_Page.js:333-336 | every `MM:SS` timer label and `HH:MM` timetable label reads back as the count it shows |
| Numerals.Hour12 | Third_Page.js:40-41 | the 12-hour dial shows 1..12 and agrees with the 24-hour hour modulo 12 (0 shown as 12) |
| Numerals.ClockField | Third_Page.js:42-43 | a clock field below ten gets a '0' prepended, which equals two-digit padding below 100 |
| Numerals.Meridiem | Third_Page.js:38 | the suffix is `PM` exactly from noon on and `AM` before |
| Numerals.TwelveHourClock | Third_Page.js:35-45 | the `h:mm:ss AM/PM` text splits at its two colons into the 12-hour hour, the minutes and the seconds with the meridiem, and reads back as the 24-hour time of day it shows |
| Timetable.MinutesOf | Third_Page.js:279-280 | `h*60+m` with minutes below 60 gives back the hour by `/60` and the minute by `%60` |
| Timetable.BlockMinutes | Third_Page.js:288-289 | `floor((total-15(n-1))/n)` is the largest length for which n blocks and n-1 breaks fit in the window |
| Timetable.Walk | Third_Page.js:296-314 | the loop over the subjects gives 2n-1 rows, opening with the first subject at the cursor for one block and closing with the last subject, with no trailing break |
| Timetable.WalkIsSchedule | Third_Page.js:296-314 | the subject walk produces subject and break rows alternating from the start; the i-th subject row carries the i-th subject and lasts one block; each break lasts 15 minutes; there is no break after the last subject; each row starts where the previous one ends |
| Timetable.WalkEnd | Third_Page.js:301-314 | the walk ends n blocks and n-1 breaks after its start |
| Timetable.Generate | Third_Page.js:279-314 | the range error occurs exactly when end <= start. The not-enough-time error occurs exactly when the range is valid and the block is under 15 minutes. Otherwise the schedule starts at the start time, tiles without gaps, ends at or before the end time and leaves fewer than n minutes unused |
| Timetable.SubjectsOf | Third_Page.js:275 | one subject per comma-separated field, at least one, each being its field with the leading and trailing white space removed |
| Timetable.GenerateFromForm | Third_Page.js:272-314 | the form submission gives the range error exactly when the end is not after the start, the not-enough-time error exactly when the blocks for the n comma-separated fields come out under 15 minutes, and otherwise the schedule of the trimmed subjects from the start time |
| Timetable.RowTime | Third_Page.js:306-312 | a row's cell reads back as the row's start and end minute, and below 100 hours it has the padded `HH:MM - HH:MM` shape: 13 characters, digits around each colon, ` - ` in the middle |
| Timetable.Rows | Third_Page.js:301-314 | one table row per block; every row shows its block's activity and a time cell that reads back as that block's boundaries |
| Timetable.ScheduleIsNonNegative | Third_Page.js:296-314 | every row of a schedule lies after the start time and has positive length |
| Timetable.GeneratedTable | Third_Page.js:296-315 | every generated schedule can be drawn: 2n-1 table rows, the first showing the first subject from the start time, every time cell reading back as its block's boundaries |
| TimetableExamples.FullDay | Third_Page.js:279-314 | 09:00-17:00 with four subjects gives 108-minute blocks: Math 09:00-10:48, a break to 11:03, Biology ending 16:57 |
| TimetableExamples.SingleSubject | Third_Page.js:288-294 | one subject in ten minutes is rejected as not enough time |
| TimetableExamples.TooShort | Third_Page.js:288-294 | two subjects in five minutes are rejected as not enough time |
| TimetableExamples.Backwards | Third_Page.js:283-286 | an end before the start is rejected as an invalid range |
| Tasks.Add | Third_Page.js:164-173 | adding appends exactly one task with the form's fields, `completed=false` and `alerted=false`, and leaves earlier tasks unchanged |
| Tasks.Toggle | Third_Page.js:139 | only the `completed` flag of the task at the index changes; every other task and field is unchanged |
| Tasks.ToggleTwice | Third_Page.js:139 | toggling the same task twice restores the list |
| Tasks.Delete | Third_Page.js:154-160 | confirmed deletion at a valid index shortens the list by one, keeps the tasks before the index, and shifts each later task down by one. The list loses exactly that task. Unconfirmed deletion or an index past the end changes nothing |
| Tasks.DeleteUndoesAdd | Third_Page.js:156 | deleting the task just added restores the list |
| Tasks.FilterOf | Third_Page.js:73-77 | the `pending` and `completed` filter names select those filters; any other name shows all tasks |
| Tasks.View | Third_Page.js:72-77 | every shown task matches the filter; the `all` filter shows the list unchanged |
| Tasks.Positions | Third_Page.js:72-77 | the shown positions are strictly increasing, in range, hold tasks the filter matches, and are as many as the shown tasks |
| Tasks.PositionsComplete | Third_Page.js:72-77 | every position whose task the filter matches is among the shown positions |
| Tasks.ViewIsPositions | Third_Page.js:72-77 | the k-th shown task is the task at the k-th matching position, so filtering keeps list order and selects exactly the matching tasks |
| Tasks.CompletedCount | Third_Page.js:60 | the completed count never exceeds the number of tasks |
| Tasks.ViewsPartition | Third_Page.js:72-77 | the pending and the completed counts sum to the number of tasks |
| Tasks.ToggleCount | Third_Page.js:139 | a toggle moves exactly one task into or out of the completed count |
| Tasks.Percent | Third_Page.js:61-65 | the rounded percentage lies in 0..100 and is the nearest whole percent, halves up. It is 0 for an empty list or no completed task, and 100 when all tasks are completed |
| Tasks.PercentMonotonic | Third_Page.js:61-65 | more completed tasks never show a smaller percentage |
| Tasks.FullPercentWithPendingTask | Third_Page.js:65 | 199 of 200 completed rounds to 100% |
| Tasks.ProgressOf | Third_Page.js:58-65 | the summary counts all tasks; the uncompleted part is the pending view; the percentage is the nearest whole percent of completed over total, 0 with nothing completed and 100 with everything completed |
| Tasks.CompletingRaisesProgress | Third_Page.js:58-65 | completing a pending task adds one to the completed count and never lowers the percentage |
| Tasks.Icon | Third_Page.js:90-93 | each of the four known categories gets its own icon; any other category gets `clipboard-list` |
| Tasks.IconIdentifiesCategory | Third_Page.js:90-93 | the icon of a known category identifies the category; unknown categories share the default icon |
| Alarms.CheckDue | Third_Page.js:122-129 | only `alerted` changes. A task ends alerted exactly when it was already alerted, or it is shown, not alerted and due. The fired positions are exactly those tasks, in list order |
| Alarms.NothingFires | Third_Page.js:124-127 | a render in which no task is shown, un-alerted and due reports no alarm |
| Alarms.CheckIdempotent | Third_Page.js:124-127 | a second render at the same instant with the same filter raises no alarm and changes nothing |
| Alarms.AlarmAtMostOnce | Third_Page.js:124-127 | a task that raised its alarm never raises it again, whatever the instant and filter of a later render |
| Alarms.CheckRun | Third_Page.js:406-409 | a run of periodic renders changes nothing but the alerted flags, never clears one, and leaves a task alerted exactly when it was alerted before or fired during the run |
| Alarms.FiresInRun | Third_Page.js:122-129 | a task shown and due in some render of a run, and not alerted before it, raises its alarm during the run |
| Alarms.AlarmOncePerRun | Third_Page.js:122-129 | over any run of renders each alarm fires at most once, only for a task not alerted before, and leaves it alerted |
| Alarms.ShownTasksOnly | Third_Page.js:72-129 | with the `all` filter, a render leaves no due task un-alerted; a task the filter hides is left untouched |
| Timer.Start | Third_Page.js:324-328 | starting while running is a no-op; otherwise the countdown runs from the same remaining time |
| Timer.Pause | Third_Page.js:347-351 | pausing stops the countdown and keeps the remaining time |
| Timer.Reset | Third_Page.js:353-359 | reset gives 1500 seconds, stopped |
| Timer.Press | Third_Page.js:361-367 | the button flips running and keeps the remaining time |
| Timer.PressTwice | Third_Page.js:361-367 | pressing the button twice returns to the same state |
| Timer.Next | Third_Page.js:330-344 | a tick takes one second off and stays within 1..1500; reaching zero gives the reset state |
| Timer.Tick | Third_Page.js:330-344 | a tick completes exactly when one second was left. Otherwise the display is five characters with the colon in the middle and reads back as the new remaining time; on completion the display shows the reset text |
| Timer.ResetButton | Third_Page.js:353-359 | the reset button restores 1500 seconds, stopped, and writes the display text that reads back as that time |
| Timer.ResetDisplayIsLabel | Third_Page.js:357 | the reset text `25:00` is the ordinary label of 1500 seconds |
| Timer.Run | Third_Page.js:330-344 | any number of ticks keeps the timer within 1..1500 seconds |
| Timer.ValidPreserved | Third_Page.js:324-359 | start, pause, reset and the button keep the timer within 1..1500 seconds |
| Timer.Countdown | Third_Page.js:330-344 | from n seconds, each tick takes one second off, and the countdown completes and resets on exactly the n-th tick |
| TaskView.ToggleShownAsWritten | Third_Page.js:105 | the check button flips `completed` of the task at its view position in the full list, changes no other field, and leaves every other task alone |
| TaskView.DeleteShownAsWritten | Third_Page.js:106 | the confirmed trash button removes the task at its view position in the full list: the tasks before it stay, the ones after it shift down by one |
| TaskView.ShownButtonsHitWrongTask | Third_Page.js:84-106 | a completed task followed by a pending one: under `pending`, the shown task's check button re-opens the hidden task and its trash button deletes it |
| TaskView.ToggleShown | Third_Page.js:105 | the corrected check button flips exactly the task drawn beside it and nothing else |
| TaskView.DeleteShown | Third_Page.js:106 | the corrected trash button removes exactly the task drawn beside it and keeps every other task in order |
| TaskView.AllFilterAgrees | Third_Page.js:84-106 | under `all`, the page's buttons and the corrected ones behave the same |
| TaskView.PositionsOfAll | Third_Page.js:72 | with every task shown, the k-th shown position is k |
| TaskView.ShownButtonsFixed | Third_Page.js:84-106 | on the same example, the corrected buttons complete and delete the pending task itself |

## Left out

- DOM building, `innerHTML` markup, CSS classes, animations, row colours, the timer's button captions and show/hide toggle: presentation only.
- `localStorage` and JSON persistence (lines 20, 53-54). The list is in-memory state, and `saveTasks` after an alarm does not change it.
- `Date` parsing, `toLocaleDateString` and `formatDate` (lines 32, 123, 133-136): they belong to the browser's locale and clock. Instants are integers, and the due instant is a function parameter.
- `setInterval`/`setTimeout` scheduling (lines 330, 384, 407, 413) is event-loop timing. A tick is an explicit step, and the periodic re-render is a run of renders.
- Drag-and-drop (lines 195-220) is floating-point DOM geometry and never touches the task list.
- Notifications, the alarm sound, `confirm`, the theme and dark-mode toggles (lines 155, 223-239, 372-404) are UI side effects. `confirm` is a boolean input to delete. An alarm is reported as a fired position.
- The progress bar width (line 63) is a floating-point CSS string.
- Tasks.Percent, Tasks.ProgressOf, Tasks.CompletingRaisesProgress: round the exact quotient. The page rounds a floating-point product, which may differ at an exact .5 boundary that floating point does not represent.
- Timetable.BlockMinutes: uses exact floor division. The page floors a floating-point quotient, which agrees for every window and subject count a form can produce.
- Timetable.Generate: takes the hour and minute values read from the browser's time inputs. `parseInt` of text that is not a number (the NaN path) is not modelled, because the time inputs always deliver `HH:MM`.
- Timer.Start, Timer.Pause: return the state only. Neither writes the display, which keeps the text of the last tick or reset; they only change the button caption, which is presentation.
- Timer.Tick: requires a running timer within 1..1500 seconds. The interval exists only while running, and `Timer.ValidPreserved` and `Timer.Next` show that every reachable state stays in range.
- Timetable.Walk: states the row count and the first and last rows. The full layout is stated by `Timetable.WalkIsSchedule` and the end minute by `Timetable.WalkEnd`, because one contract carrying all of it is too costly to prove.
- Tasks.Delete: covers only the splice. The re-render that follows every add, toggle and delete (lines 151, 158, 175) runs the alarm check, which is `Alarms.CheckDue` applied to the new list.

## Findings

| source | as written | input that shows it | evidently intended | confidence | as-written member | corrected member |
|---|---|---|---|---|---|---|
| Third_Page.js:105 | the check button passes the task's position in the filtered list to `toggleComplete`, which indexes the full list | tasks `[completed A, pending B]`, filter `pending`, check B | B becomes completed | high (not executed) | TaskView.ToggleShownAsWritten, TaskView.ShownButtonsHitWrongTask | TaskView.ToggleShown, TaskView.ShownButtonsFixed |
| Third_Page.js:106 | the trash button passes the filtered position to `deleteTask`, which splices the full list | tasks `[completed A, pending B]`, filter `pending`, delete B and confirm | B is deleted | high (not executed) | TaskView.DeleteShownAsWritten, TaskView.ShownButtonsHitWrongTask | TaskView.DeleteShown, TaskView.ShownButtonsFixed |

=== FILE: alarms.dfy ===
/**
 * The due-alarm check that runs inside every render of the task list: each
 * shown task that has not alerted yet and whose due instant has passed
 * raises a notification and is marked as alerted.
 */
module Alarms {
  import opened Wrappers
  import opened Tasks

  /** The clock, as an abstract instant, and the due instant of a task's
      date and time fields; `None` stands for a date the browser cannot
      read, against which `now >= due` is false. */
  type DueOf = (string, string) -> Option<int>

  predicate IsDue(t: Task, now: int, due: DueOf)
  {
    match due(t.date, t.time)
    case Some(d) => now >= d
    case None => false
  }

  /** A task raises its alarm in a render with filter `f`. */
  predicate Fires(t: Task, f: Filter, now: int, due: DueOf)
  {
    Shows(f, t) && !t.alerted && IsDue(t, now, due)
  }

  /** The list after the check, and the positions that raised an alarm in
      the order their notifications appear. */
  datatype Check = Check(tasks: seq<Task>, fired: seq<nat>)

  /** The alarm check of one render. The loop in the page's script walks the
      filtered list, whose entries are the very task objects of the full
      list, so the flag lands in the full list; walking the full list and
      skipping the tasks the filter hides visits the same tasks in the same
      order. */
  function CheckDue(tasks: seq<Task>, f: Filter, now: int, due: DueOf): (c: Check)
    ensures |c.tasks| == |tasks|
    ensures forall j :: 0 <= j < |tasks| ==> c.tasks[j].(alerted := tasks[j].alerted) == tasks[j]
    ensures forall j :: 0 <= j < |tasks| ==>
      (c.tasks[j].alerted <==> tasks[j].alerted || Fires(tasks[j], f, now, due))
    ensures forall k :: 0 <= k < |c.fired| ==>
      c.fired[k] < |tasks| && Fires(tasks[c.fired[k]], f, now, due)
    ensures forall j :: 0 <= j < |tasks| && Fires(tasks[j], f, now, due) ==> j in c.fired
    ensures forall k, l :: 0 <= k < l < |c.fired| ==> c.fired[k] < c.fired[l]
  {
    Check(Marked(tasks, f, now, due), Firing(tasks, f, now, due))
  }

  /** The list with the alerted flag set on every task that fires. */
  function Marked(tasks: seq<Task>, f: Filter, now: int, due: DueOf): (r: seq<Task>)
    ensures |r| == |tasks|
    ensures forall j :: 0 <= j < |tasks| ==> r[j].(alerted := tasks[j].alerted) == tasks[j]
    ensures forall j :: 0 <= j < |tasks| ==>
      (r[j].alerted <==> tasks[j].alerted || Fires(tasks[j], f, now, due))
  {
    seq(|tasks|, j requires 0 <= j < |tasks| =>
      if Fires(tasks[j], f, now, due) then tasks[j].(alerted := true) else tasks[j])
  }

  /** The positions that fire, in list order. */
  function Firing(tasks: seq<Task>, f: Filter, now: int, due: DueOf): (ps: seq<nat>)
    ensures forall k :: 0 <= k < |ps| ==> ps[k] < |tasks| && Fires(tasks[ps[k]], f, now, due)
    ensures forall j :: 0 <= j < |tasks| && Fires(tasks[j], f, now, due) ==> j in ps
    ensures forall k, l :: 0 <= k < l < |ps| ==> ps[k] < ps[l]
  {
    if |tasks| == 0 then []
    else
      var n := |tasks| - 1;
      var ps := Firing(tasks[..n], f, now, due);
      assert forall j :: 0 <= j < n ==> tasks[..n][j] == tasks[j];
      ps + (if Fires(tasks[n], f, now, due) then [n] else [])
  }

  /** A second render at the same instant with the same filter raises no
      alarm and changes nothing. */
  lemma CheckIdempotent(tasks: seq<Task>, f: Filter, now: int, due: DueOf)
    ensures var c := CheckDue(tasks, f, now, due);
      CheckDue(c.tasks, f, now, due) == Check(c.tasks, [])
  {
    var c := CheckDue(tasks, f, now, due);
    var c2 := CheckDue(c.tasks, f, now, due);
    forall j | 0 <= j < |c.tasks|
      ensures !Fires(c.tasks[j], f, now, due)
    {
      assert c.tasks[j].(alerted := tasks[j].alerted) == tasks[j];
    }
    forall j | 0 <= j < |c.tasks|
      ensures c2.tasks[j] == c.tasks[j]
    {
      assert c2.tasks[j].(alerted := c.tasks[j].alerted) == c.tasks[j];
    }
    assert c2.tasks == c.tasks;
    NothingFires(c.tasks, f, now, due);
  }

  /** When no task fires, no position is reported. */
  lemma {:induction false} NothingFires(tasks: seq<Task>, f: Filter, now: int, due: DueOf)
    requires forall j :: 0 <= j < |tasks| ==> !Fires(tasks[j], f, now, due)
    ensures Firing(tasks, f, now, due) == []
  {
    if |tasks| > 0 {
      var n := |tasks| - 1;
      assert forall j :: 0 <= j < n ==> tasks[..n][j] == tasks[j];
      NothingFires(tasks[..n], f, now, due);
    }
  }

  /** A task that raised its alarm never raises it again, whatever the
      instant and filter of a later render. */
  lemma AlarmAtMostOnce(tasks: seq<Task>, f1: Filter, now1: int, f2: Filter, now2: int, due: DueOf)
    ensures var c1 := CheckDue(tasks, f1, now1, due);
      var c2 := CheckDue(c1.tasks, f2, now2, due);
      forall k :: 0 <= k < |c1.fired| ==> c1.fired[k] !in c2.fired
  {
    var c1 := CheckDue(tasks, f1, now1, due);
    var c2 := CheckDue(c1.tasks, f2, now2, due);
    forall k | 0 <= k < |c1.fired|
      ensures c1.fired[k] !in c2.fired
    {
      assert c1.tasks[c1.fired[k]].alerted;
    }
  }

  /** One render: the filter it draws with and the clock reading. */
  datatype Render = Render(filter: Filter, now: int)

  /** A run of renders with no other change to the list, each alarm check
      starting from the flags the previous one left. */
  function CheckRun(tasks: seq<Task>, renders: seq<Render>, due: DueOf): (c: Check)
    ensures |c.tasks| == |tasks|
    ensures forall j :: 0 <= j < |tasks| && tasks[j].alerted ==> c.tasks[j].alerted
    ensures forall j :: 0 <= j < |tasks| ==> c.tasks[j].(alerted := tasks[j].alerted) == tasks[j]
    ensures forall j :: 0 <= j < |tasks| ==> (c.tasks[j].alerted <==> tasks[j].alerted || j in c.fired)
    decreases |renders|
  {
    if |renders| == 0 then Check(tasks, [])
    else
      var first := CheckDue(tasks, renders[0].filter, renders[0].now, due);
      var rest := CheckRun(first.tasks, renders[1..], due);
      Check(rest.tasks, first.fired + rest.fired)
  }

  /** A task that is due and shown in some render of a run, and had not
      alerted before the run, raises its alarm during the run: together
      with `AlarmOncePerRun`, exactly one notification. */
  lemma {:induction false} FiresInRun(tasks: seq<Task>, renders: seq<Render>, due: DueOf, j: nat, i: nat)
    requires j < |tasks| && i < |renders| && !tasks[j].alerted
    requires Fires(tasks[j], renders[i].filter, renders[i].now, due)
    ensures j in CheckRun(tasks, renders, due).fired
    decreases |renders|
  {
    var first := CheckDue(tasks, renders[0].filter, renders[0].now, due);
    if j !in first.fired {
      assert first.tasks[j] == tasks[j];
      assert renders[1..][i - 1] == renders[i];
      FiresInRun(first.tasks, renders[1..], due, j, i - 1);
    }
  }

  /** `c` raised each alarm at most once, only for tasks not alerted in
      `before`, and left each of them alerted. */
  ghost predicate FiredOnce(before: seq<Task>, c: Check)
  {
    && |c.tasks| == |before|
    && (forall k, l :: 0 <= k < l < |c.fired| ==> c.fired[k] != c.fired[l])
    && (forall k :: 0 <= k < |c.fired| ==>
          c.fired[k] < |before| && !before[c.fired[k]].alerted && c.tasks[c.fired[k]].alerted)
  }

  /** Two checks in a row, the second never clearing a flag, fire each
      alarm at most once between them. */
  lemma ComposeFiredOnce(tasks: seq<Task>, first: Check, rest: Check)
    requires FiredOnce(tasks, first) && FiredOnce(first.tasks, rest)
    requires forall j :: 0 <= j < |tasks| && tasks[j].alerted ==> first.tasks[j].alerted
    requires forall j :: 0 <= j < |first.tasks| && first.tasks[j].alerted ==> rest.tasks[j].alerted
    ensures FiredOnce(tasks, Check(rest.tasks, first.fired + rest.fired))
  {
    var fired := first.fired + rest.fired;
    forall k | 0 <= k < |fired|
      ensures fired[k] < |tasks| && !tasks[fired[k]].alerted && rest.tasks[fired[k]].alerted
    {
      if k >= |first.fired| {
        assert fired[k] == rest.fired[k - |first.fired|];
        assert !first.tasks[fired[k]].alerted;
      } else {
        assert fired[k] == first.fired[k];
        assert first.tasks[fired[k]].alerted;
      }
    }
    forall k, l | 0 <= k < l < |fired|
      ensures fired[k] != fired[l]
    {
      if k < |first.fired| && l >= |first.fired| {
        assert first.tasks[fired[k]].alerted;
        assert fired[l] == rest.fired[l - |first.fired|];
      } else if l >= |first.fired| {
        assert fired[k] == rest.fired[k - |first.fired|];
        assert fired[l] == rest.fired[l - |first.fired|];
      }
    }
  }

  /** Over any run of renders each task's alarm fires at most once, and
      only for a task that had not alerted before the run; every task that
      fired is marked as alerted at the end. */
  lemma {:induction false} AlarmOncePerRun(tasks: seq<Task>, renders: seq<Render>, due: DueOf)
    ensures FiredOnce(tasks, CheckRun(tasks, renders, due))
    decreases |renders|
  {
    if |renders| > 0 {
      var first := CheckDue(tasks, renders[0].filter, renders[0].now, due);
      var rest := CheckRun(first.tasks, renders[1..], due);
      AlarmOncePerRun(first.tasks, renders[1..], due);
      ComposeFiredOnce(tasks, first, rest);
    }
  }

  /** With every task shown, a render leaves no overdue task without its
      alarm; a filter that hides a task also holds back its alarm. */
  lemma ShownTasksOnly(tasks: seq<Task>, f: Filter, now: int, due: DueOf)
    ensures var c := CheckDue(tasks, f, now, due);
      && (f == All ==> forall j :: 0 <= j < |tasks| && IsDue(tasks[j], now, due) ==> c.tasks[j].alerted)
      && (forall j :: 0 <= j < |tasks| && !Shows(f, tasks[j]) ==> c.tasks[j] == tasks[j])
  {
  }
}

=== FILE: numerals.dfy ===
/**
 * Number-to-text formatting used by the page's clock, timer and timetable
 * labels: decimal `toString()`, `padStart(2, '0')`, the two-field `MM:SS`
 * label and the 12-hour wall clock, each with a parser that inverts it.
 */
module Numerals {
  import opened Wrappers
  import Text

  predicate IsDigit(c: char) {
    '0' <= c <= '9'
  }

  predicate AllDigits(s: string) {
    forall i :: 0 <= i < |s| ==> IsDigit(s[i])
  }

  function DigitValue(c: char): nat
    requires IsDigit(c)
  {
    c as int - '0' as int
  }

  function DigitChar(d: nat): (c: char)
    requires d < 10
    ensures IsDigit(c) && DigitValue(c) == d
  {
    ('0' as int + d) as char
  }

  /** `n.toString()` for a non-negative integer: decimal digits, most
      significant first, with no leading zero. */
  function Digits(n: nat): (r: string)
    ensures |r| >= 1 && AllDigits(r)
    ensures |r| == 1 <==> n < 10
    ensures r[0] == '0' ==> n == 0
  {
    if n < 10 then [DigitChar(n)] else Digits(n / 10) + [DigitChar(n % 10)]
  }

  /** The value of a string of decimal digits (the empty string reads as 0). */
  function ParseDigits(s: string): nat
    requires AllDigits(s)
  {
    if |s| == 0 then 0 else ParseDigits(s[..|s| - 1]) * 10 + DigitValue(s[|s| - 1])
  }

  lemma {:induction false} DigitsRoundTrip(n: nat)
    ensures ParseDigits(Digits(n)) == n
  {
    if n >= 10 {
      var d := Digits(n / 10);
      DigitsRoundTrip(n / 10);
      assert (d + [DigitChar(n % 10)])[..|d|] == d;
    }
  }

  /** A leading zero does not change the value read. */
  lemma {:induction false} ParseLeadingZero(s: string)
    requires AllDigits(s)
    ensures ParseDigits("0" + s) == ParseDigits(s)
  {
    if |s| > 0 {
      ParseLeadingZero(s[..|s| - 1]);
      assert ("0" + s)[..|s|] == "0" + s[..|s| - 1];
    }
  }

  /** `s.padStart(2, '0')`: zeros in front up to length two; a longer string
      is left as it is. */
  function PadStart2(s: string): (r: string)
    ensures |r| == if |s| >= 2 then |s| else 2
    ensures r[|r| - |s|..] == s
    ensures forall i :: 0 <= i < |r| - |s| ==> r[i] == '0'
  {
    if |s| >= 2 then s else if |s| == 1 then "0" + s else "00"
  }

  /** `n.toString().padStart(2, '0')`: digits only, at least two of them. */
  function Padded(n: nat): (r: string)
    ensures |r| >= 2 && AllDigits(r)
    ensures n < 100 <==> |r| == 2
  {
    DigitsBelow100(n);
    PadStart2(Digits(n))
  }

  /** At most two digits exactly below 100. */
  lemma DigitsBelow100(n: nat)
    ensures |Digits(n)| <= 2 <==> n < 100
  {
    if n >= 10 {
      assert |Digits(n)| == |Digits(n / 10)| + 1;
      assert n < 100 <==> n / 10 < 10;
    }
  }

  lemma PaddedRoundTrip(n: nat)
    ensures ParseDigits(Padded(n)) == n
  {
    DigitsRoundTrip(n);
    if n < 10 {
      ParseLeadingZero(Digits(n));
    }
  }

  /** A non-negative count `x` shown as `floor(x/60)` and `x%60`, each
      zero-padded to two digits and joined by a colon: minutes-since-midnight
      as `HH:MM` in the timetable, seconds as `MM:SS` on the study timer. */
  function SexagesimalLabel(x: nat): (r: string)
    ensures |r| >= 5 && r[|r| - 3] == ':'
    ensures x < 6000 <==> |r| == 5
    ensures x < 6000 ==> forall k :: k in {0, 1, 3, 4} ==> IsDigit(r[k])
  {
    Padded(x / 60) + ":" + Padded(x % 60)
  }

  /** Reads a label of two digit fields separated by one colon, the second
      below 60, back into the count it shows. */
  function ParseSexagesimal(s: string): Option<nat>
  {
    ParseFieldPair(Text.Split(s, ':'))
  }

  function ParseFieldPair(fields: seq<string>): Option<nat>
  {
    if |fields| == 2 && |fields[0]| > 0 && |fields[1]| > 0
       && AllDigits(fields[0]) && AllDigits(fields[1]) && ParseDigits(fields[1]) < 60
    then Some(ParseDigits(fields[0]) * 60 + ParseDigits(fields[1]))
    else None
  }

  lemma DigitsHaveNoColon(s: string)
    requires AllDigits(s)
    ensures ':' !in s && ' ' !in s
  {
  }

  /** Two digit fields around one colon read back as minutes and seconds. */
  lemma ParseFields(a: string, b: string)
    requires |a| > 0 && |b| > 0 && AllDigits(a) && AllDigits(b) && ParseDigits(b) < 60
    ensures ParseSexagesimal(a + [':'] + b) == Some(ParseDigits(a) * 60 + ParseDigits(b))
  {
    DigitsHaveNoColon(a);
    DigitsHaveNoColon(b);
    Text.SplitPair(a, b, ':');
    FieldPairValue(a, b);
  }

  lemma FieldPairValue(a: string, b: string)
    requires |a| > 0 && |b| > 0 && AllDigits(a) && AllDigits(b) && ParseDigits(b) < 60
    ensures ParseFieldPair([a, b]) == Some(ParseDigits(a) * 60 + ParseDigits(b))
  {
  }

  /** Every label can be read back to the count it shows. */
  lemma SexagesimalRoundTrip(x: nat)
    ensures ParseSexagesimal(SexagesimalLabel(x)) == Some(x)
  {
    PaddedPair(x / 60, x % 60);
  }

  /** Two padded fields, the second below 60, read back as one count. */
  lemma PaddedPair(q: nat, m: nat)
    requires m < 60
    ensures ParseSexagesimal(Padded(q) + ":" + Padded(m)) == Some(q * 60 + m)
  {
    var a, b := Padded(q), Padded(m);
    assert a + ":" + b == a + [':'] + b;
    PaddedRoundTrip(q);
    PaddedRoundTrip(m);
    ParseFields(a, b);
  }

  /** A wall-clock reading as `Date.getHours/getMinutes/getSeconds` give it. */
  datatype TimeOfDay = TimeOfDay(hours: nat, minutes: nat, seconds: nat)
  {
    predicate Valid() {
      hours < 24 && minutes < 60 && seconds < 60
    }
  }

  /** The hour on a 12-hour dial: `hours % 12`, with 0 shown as 12. */
  function Hour12(hours: nat): (h: nat)
    ensures 1 <= h <= 12
    ensures h % 12 == hours % 12
  {
    if hours % 12 == 0 then 12 else hours % 12
  }

  /** `hours >= 12 ? 'PM' : 'AM'`. */
  function Meridiem(hours: nat): (r: string)
    ensures r == "PM" <==> hours >= 12
    ensures r == "AM" <==> hours < 12
  {
    if hours >= 12 then "PM" else "AM"
  }

  /** A minutes or seconds field of the clock: a '0' prepended below ten. */
  function ClockField(n: nat): (r: string)
    ensures AllDigits(r) && |r| >= 2
    ensures n < 100 ==> r == Padded(n)
  {
    if n < 10 then "0" + Digits(n) else Digits(n)
  }

  /** The live clock text, `h:mm:ss AM` or `h:mm:ss PM`: it splits at its
      two colons into the hour, the minutes, and the seconds followed by the
      meridiem, and reads back as the time of day it shows. */
  function TwelveHourClock(t: TimeOfDay): (r: string)
    requires t.Valid()
    ensures Text.Split(r, ':')
         == [Digits(Hour12(t.hours)), ClockField(t.minutes),
             ClockField(t.seconds) + (" " + Meridiem(t.hours))]
    ensures ParseTwelveHour(r) == Some(t)
  {
    var a, b, c := Digits(Hour12(t.hours)), ClockField(t.minutes), ClockField(t.seconds);
    var tail := c + (" " + Meridiem(t.hours));
    assert ':' !in tail by {
      DigitsHaveNoColon(c);
    }
    DigitsHaveNoColon(a);
    DigitsHaveNoColon(b);
    Text.SplitTriple(a, b, tail, ':');
    FieldsRoundTrip(t);
    a + ":" + b + ":" + tail
  }

  /** Reads `h:mm:ss AM|PM` back into a 24-hour time of day. */
  function ParseTwelveHour(s: string): Option<TimeOfDay>
  {
    ParseClockFields(Text.Split(s, ':'))
  }

  /** The three colon-separated fields of the clock text, the last one
      carrying the ` AM` or ` PM` suffix. */
  function ParseClockFields(fields: seq<string>): Option<TimeOfDay>
  {
    if |fields| != 3 || |fields[2]| < 3 then None
    else
      var last := fields[2];
      ParseClockParts(fields[0], fields[1], last[..|last| - 3], last[|last| - 3..])
  }

  /** The hour, minutes and seconds fields and the three-character suffix. */
  function ParseClockParts(hour: string, minutes: string, secs: string, suffix: string): Option<TimeOfDay>
  {
    if !(suffix == " AM" || suffix == " PM") then None
    else if |hour| == 0 || |minutes| == 0 || |secs| == 0 then None
    else if !(AllDigits(hour) && AllDigits(minutes) && AllDigits(secs)) then None
    else
      var h, m, sec := ParseDigits(hour), ParseDigits(minutes), ParseDigits(secs);
      if !(1 <= h <= 12 && m < 60 && sec < 60) then None
      else Some(TimeOfDay(h % 12 + (if suffix == " PM" then 12 else 0), m, sec))
  }

  lemma FieldsRoundTrip(t: TimeOfDay)
    requires t.Valid()
    ensures ParseClockFields([Digits(Hour12(t.hours)), ClockField(t.minutes),
                              ClockField(t.seconds) + (" " + Meridiem(t.hours))]) == Some(t)
  {
    var a, b, c := Digits(Hour12(t.hours)), ClockField(t.minutes), ClockField(t.seconds);
    DigitsRoundTrip(Hour12(t.hours));
    ClockFieldRoundTrip(t.minutes);
    ClockFieldRoundTrip(t.seconds);
    ClockFieldsOf(a, b, c, " " + Meridiem(t.hours));
    MeridiemHour(t.hours);
  }

  /** Three digit fields, the last followed by ` AM` or ` PM`, read back as
      a 24-hour time of day. */
  lemma ClockFieldsOf(a: string, b: string, c: string, suffix: string)
    requires |a| > 0 && |b| > 0 && |c| > 0 && AllDigits(a) && AllDigits(b) && AllDigits(c)
    requires suffix == " AM" || suffix == " PM"
    requires 1 <= ParseDigits(a) <= 12 && ParseDigits(b) < 60 && ParseDigits(c) < 60
    ensures ParseClockFields([a, b, c + suffix])
         == Some(TimeOfDay(ParseDigits(a) % 12 + (if suffix == " PM" then 12 else 0),
                           ParseDigits(b), ParseDigits(c)))
  {
    var tail := c + suffix;
    assert tail[..|tail| - 3] == c && tail[|tail| - 3..] == suffix;
    ClockPartsOf(a, b, c, suffix);
  }

  lemma ClockPartsOf(a: string, b: string, c: string, suffix: string)
    requires |a| > 0 && |b| > 0 && |c| > 0 && AllDigits(a) && AllDigits(b) && AllDigits(c)
    requires suffix == " AM" || suffix == " PM"
    requires 1 <= ParseDigits(a) <= 12 && ParseDigits(b) < 60 && ParseDigits(c) < 60
    ensures ParseClockParts(a, b, c, suffix)
         == Some(TimeOfDay(ParseDigits(a) % 12 + (if suffix == " PM" then 12 else 0),
                           ParseDigits(b), ParseDigits(c)))
  {
  }

  /** The 12-hour dial and the meridiem together give the 24-hour hour back. */
  lemma MeridiemHour(hours: nat)
    requires hours < 24
    ensures Hour12(hours) % 12 + (if " " + Meridiem(hours) == " PM" then 12 else 0) == hours
  {
    if hours < 12 {
      assert (" " + Meridiem(hours))[1] != " PM"[1];
    }
  }

  lemma ClockFieldRoundTrip(n: nat)
    ensures ParseDigits(ClockField(n)) == n
  {
    DigitsRoundTrip(n);
    if n < 10 {
      ParseLeadingZero(Digits(n));
    }
  }
}

=== FILE: tasks.dfy ===
/**
 * The task list: the ordered list of tasks the page keeps, the operations
 * the form and buttons perform on it, the filtered views and the progress
 * summary. Positions are indices into the full list.
 */
module Tasks {
  import opened Wrappers

  /** One task as the form records it. The JavaScript field `type` is called
      `category` here. */
  datatype Task = Task(
    title: string,
    desc: string,
    date: string,
    time: string,
    category: string,
    completed: bool,
    alerted: bool)

  /** The form submission: append a new, not yet completed, not yet
      alerted task. */
  function Add(tasks: seq<Task>, title: string, desc: string, date: string, time: string,
               category: string): (r: seq<Task>)
    ensures |r| == |tasks| + 1
    ensures r[..|tasks|] == tasks
    ensures !r[|tasks|].completed && !r[|tasks|].alerted
    ensures r[|tasks|].title == title && r[|tasks|].desc == desc && r[|tasks|].date == date
         && r[|tasks|].time == time && r[|tasks|].category == category
  {
    tasks + [Task(title, desc, date, time, category, false, false)]
  }

  /** `toggleComplete(index)`: flips `completed` of the task at `index`. */
  function Toggle(tasks: seq<Task>, index: nat): (r: seq<Task>)
    requires index < |tasks|
    ensures |r| == |tasks|
    ensures r[index].completed != tasks[index].completed
    ensures r[index].(completed := tasks[index].completed) == tasks[index]
    ensures forall j :: 0 <= j < |tasks| && j != index ==> r[j] == tasks[j]
  {
    tasks[index := tasks[index].(completed := !tasks[index].completed)]
  }

  /** Toggling the same task twice restores the list. */
  lemma ToggleTwice(tasks: seq<Task>, index: nat)
    requires index < |tasks|
    ensures Toggle(Toggle(tasks, index), index) == tasks
  {
  }

  /** `deleteTask(index)`: once the user confirms, `splice(index, 1)` drops
      the task at `index`; an index past the end removes nothing. */
  function Delete(tasks: seq<Task>, index: nat, confirmed: bool): (r: seq<Task>)
    ensures !confirmed || index >= |tasks| ==> r == tasks
    ensures confirmed && index < |tasks| ==>
      && |r| == |tasks| - 1
      && r[..index] == tasks[..index]
      && (forall j :: index < j < |tasks| ==> r[j - 1] == tasks[j])
      && multiset(r) + multiset{tasks[index]} == multiset(tasks)
  {
    if confirmed && index < |tasks| then
      assert tasks == tasks[..index] + [tasks[index]] + tasks[index + 1..];
      tasks[..index] + tasks[index + 1..]
    else tasks
  }

  /** Deleting the task just added gives the list back. */
  lemma DeleteUndoesAdd(tasks: seq<Task>, title: string, desc: string, date: string,
                        time: string, category: string)
    ensures Delete(Add(tasks, title, desc, date, time, category), |tasks|, true) == tasks
  {
  }

  /** The filter buttons' `data-filter` values. Any other value shows every
      task, as the `if`/`else if` chain does. */
  datatype Filter = All | Pending | Completed

  function FilterOf(name: string): (f: Filter)
    ensures f == Pending <==> name == "pending"
    ensures f == Completed <==> name == "completed"
  {
    if name == "pending" then Pending else if name == "completed" then Completed else All
  }

  predicate Shows(f: Filter, t: Task)
  {
    match f
    case All => true
    case Pending => !t.completed
    case Completed => t.completed
  }

  /** The filtered list `renderTasks` draws: `tasks.filter(...)` for the
      pending and completed filters, the list itself otherwise. */
  function View(tasks: seq<Task>, f: Filter): (r: seq<Task>)
    ensures |r| <= |tasks|
    ensures forall k :: 0 <= k < |r| ==> Shows(f, r[k])
    ensures f == All ==> r == tasks
  {
    if |tasks| == 0 then []
    else
      var last := tasks[|tasks| - 1];
      View(tasks[..|tasks| - 1], f) + (if Shows(f, last) then [last] else [])
  }

  /** The positions in the full list of the tasks a filter shows, in
      increasing order: an independent description of the view. */
  function Positions(tasks: seq<Task>, f: Filter): (ps: seq<nat>)
    ensures forall k :: 0 <= k < |ps| ==> ps[k] < |tasks| && Shows(f, tasks[ps[k]])
    ensures forall k, l :: 0 <= k < l < |ps| ==> ps[k] < ps[l]
    ensures |ps| == |View(tasks, f)|
  {
    if |tasks| == 0 then []
    else
      var n := |tasks| - 1;
      var ps := Positions(tasks[..n], f);
      assert forall j :: 0 <= j < n ==> tasks[..n][j] == tasks[j];
      ps + (if Shows(f, tasks[n]) then [n] else [])
  }

  /** No shown task is missing from the positions. */
  lemma {:induction false} PositionsComplete(tasks: seq<Task>, f: Filter)
    ensures forall j :: 0 <= j < |tasks| && Shows(f, tasks[j]) ==> j in Positions(tasks, f)
  {
    if |tasks| > 0 {
      var n := |tasks| - 1;
      PositionsComplete(tasks[..n], f);
      assert forall j :: 0 <= j < n ==> tasks[..n][j] == tasks[j];
    }
  }

  /** `v` lists the tasks of `tasks` at positions `ps`, one for one. */
  ghost predicate Picks(v: seq<Task>, ps: seq<nat>, tasks: seq<Task>)
  {
    |v| == |ps| && forall k :: 0 <= k < |v| ==> ps[k] < |tasks| && v[k] == tasks[ps[k]]
  }

  /** Appending a task, and picking it or not, keeps the pairing. */
  lemma PicksExtend(v: seq<Task>, ps: seq<nat>, front: seq<Task>, t: Task, picked: bool)
    requires Picks(v, ps, front)
    ensures Picks(v + (if picked then [t] else []), ps + (if picked then [|front|] else []),
                  front + [t])
  {
    var tasks := front + [t];
    assert forall j :: 0 <= j < |front| ==> tasks[j] == front[j];
  }

  /** The view is exactly the shown tasks, in list order: its k-th entry is
      the task at the k-th shown position. */
  lemma {:induction false} ViewIsPositions(tasks: seq<Task>, f: Filter)
    ensures forall k :: 0 <= k < |View(tasks, f)| ==>
      View(tasks, f)[k] == tasks[Positions(tasks, f)[k]]
  {
    if |tasks| > 0 {
      var n := |tasks| - 1;
      var front := tasks[..n];
      var v, ps := View(front, f), Positions(front, f);
      assert Picks(v, ps, front) by {
        ViewIsPositions(front, f);
      }
      assert Picks(View(tasks, f), Positions(tasks, f), tasks) by {
        var shown := Shows(f, tasks[n]);
        PicksExtend(v, ps, front, tasks[n], shown);
        assert front + [tasks[n]] == tasks;
        assert View(tasks, f) == v + (if shown then [tasks[n]] else []);
        assert Positions(tasks, f) == ps + (if shown then [n] else []);
      }
    }
  }

  /** How many tasks are completed: `tasks.filter(t => t.completed).length`. */
  function CompletedCount(tasks: seq<Task>): (c: nat)
    ensures c <= |tasks|
  {
    |View(tasks, Completed)|
  }

  /** The pending and the completed views split the list between them. */
  lemma {:induction false} ViewsPartition(tasks: seq<Task>)
    ensures |View(tasks, Pending)| + |View(tasks, Completed)| == |tasks|
  {
    if |tasks| > 0 {
      ViewsPartition(tasks[..|tasks| - 1]);
    }
  }

  /** The counts only depend on which tasks are completed: flipping one
      task moves exactly one task between the two views. */
  lemma {:induction false} ToggleCount(tasks: seq<Task>, index: nat)
    requires index < |tasks|
    ensures tasks[index].completed ==> CompletedCount(Toggle(tasks, index)) + 1 == CompletedCount(tasks)
    ensures !tasks[index].completed ==> CompletedCount(Toggle(tasks, index)) == CompletedCount(tasks) + 1
  {
    var n := |tasks| - 1;
    var r := Toggle(tasks, index);
    assert r[..n] == if index == n then tasks[..n] else Toggle(tasks[..n], index);
    if index < n {
      ToggleCount(tasks[..n], index);
    }
  }

  /** `Math.round(completed / total * 100)` in exact arithmetic: the
      nearest whole percentage, halves rounding up, 0 for an empty list. */
  function Percent(completed: nat, total: nat): (p: nat)
    requires completed <= total
    ensures p <= 100
    ensures total == 0 ==> p == 0
    ensures total > 0 ==> 2 * (100 * completed) - total < 2 * (p * total) <= 2 * (100 * completed) + total
    ensures completed == 0 ==> p == 0
    ensures total > 0 && completed == total ==> p == 100
  {
    if total == 0 then 0
    else
      var p := (200 * completed + total) / (2 * total);
      RoundedShare(completed, total, p);
      p
  }

  lemma DivBounds(x: nat, d: nat)
    requires d > 0
    ensures d * (x / d) <= x < d * (x / d) + d
  {
  }

  lemma RoundedShare(completed: nat, total: nat, p: int)
    requires 0 < total && completed <= total
    requires p == (200 * completed + total) / (2 * total)
    ensures p <= 100
    ensures 2 * (100 * completed) - total < 2 * (p * total) <= 2 * (100 * completed) + total
    ensures completed == 0 ==> p == 0
    ensures completed == total ==> p == 100
  {
    var d := 2 * total;
    var x := 200 * completed + total;
    DivBounds(x, d);
    assert d * p == 2 * (p * total);
    if p > 100 {
      MulMonotonic(101, p, d);
    }
    if completed == 0 && p > 0 {
      MulMonotonic(1, p, d);
    }
    if completed == total && p < 100 {
      MulMonotonic(p, 99, d);
    }
  }

  /** More completed tasks never show a smaller percentage. */
  lemma PercentMonotonic(c1: nat, c2: nat, total: nat)
    requires c1 <= c2 <= total
    ensures Percent(c1, total) <= Percent(c2, total)
  {
    var p1, p2 := Percent(c1, total), Percent(c2, total);
    if p1 > p2 {
      MulMonotonic(p2 + 1, p1, 2 * total);
    }
  }

  lemma MulMonotonic(a: int, b: int, c: nat)
    requires a <= b
    ensures a * c <= b * c
  {
  }

  /** Rounding can show 100% while a task is still pending: 199 of 200
      done is 99.5%, which rounds up. */
  lemma FullPercentWithPendingTask()
    ensures Percent(199, 200) == 100
  {
  }

  /** `updateProgress`: the `completed/total tasks` text and the rounded
      percentage. */
  datatype Progress = Progress(completed: nat, total: nat, percent: nat)

  function ProgressOf(tasks: seq<Task>): (p: Progress)
    ensures p.total == |tasks| && p.completed <= p.total && p.percent <= 100
    ensures p.total - p.completed == |View(tasks, Pending)|
    ensures p.completed == 0 ==> p.percent == 0
    ensures |tasks| > 0 && p.completed == |tasks| ==> p.percent == 100
    ensures p.total > 0 ==>
      2 * (100 * p.completed) - p.total < 2 * (p.percent * p.total) <= 2 * (100 * p.completed) + p.total
  {
    ViewsPartition(tasks);
    var c := CompletedCount(tasks);
    Progress(c, |tasks|, Percent(c, |tasks|))
  }

  /** Completing a pending task raises the completed count by one and
      never lowers the percentage. */
  lemma CompletingRaisesProgress(tasks: seq<Task>, index: nat)
    requires index < |tasks| && !tasks[index].completed
    ensures ProgressOf(Toggle(tasks, index)).completed == ProgressOf(tasks).completed + 1
    ensures ProgressOf(Toggle(tasks, index)).percent >= ProgressOf(tasks).percent
  {
    ToggleCount(tasks, index);
    PercentMonotonic(CompletedCount(tasks), CompletedCount(Toggle(tasks, index)), |tasks|);
  }

  /** The categories with their own icon, in the order the page's script tests them. */
  const KnownCategories: seq<string> := ["Study", "Academic", "Extracurricular", "Assignment"]
  const KnownIcons: seq<string> := ["book", "graduation-cap", "running", "file-alt"]
  const DefaultIcon: string := "clipboard-list"

  /** The Font Awesome icon name shown beside a task. */
  function Icon(category: string): (icon: string)
    ensures icon == DefaultIcon <==> category !in KnownCategories
    ensures forall i :: 0 <= i < |KnownCategories| && category == KnownCategories[i] ==> icon == KnownIcons[i]
  {
    if category == "Study" then "book"
    else if category == "Academic" then "graduation-cap"
    else if category == "Extracurricular" then "running"
    else if category == "Assignment" then "file-alt"
    else DefaultIcon
  }

  /** Which known category an icon stands for, if any. */
  function CategoryOfIcon(icon: string): Option<string>
  {
    if icon == "book" then Some("Study")
    else if icon == "graduation-cap" then Some("Academic")
    else if icon == "running" then Some("Extracurricular")
    else if icon == "file-alt" then Some("Assignment")
    else None
  }

  /** Distinct known categories get distinct icons, so the icon identifies
      the category; every other category gets the default icon. */
  lemma IconIdentifiesCategory(category: string)
    ensures category in KnownCategories ==> CategoryOfIcon(Icon(category)) == Some(category)
    ensures category !in KnownCategories ==> CategoryOfIcon(Icon(category)) == None
  {
  }
}

=== FILE: taskview.dfy ===
/**
 * The task buttons as drawn under a filter. Each rendered task's buttons
 * carry its position in the filtered list, while `toggleComplete` and
 * `deleteTask` use that number as a position in the full list. This module
 * gives both the page's behaviour and the behaviour the buttons are meant
 * to have: acting on the task they are drawn next to.
 */
module TaskView {
  import opened Tasks

  /** The check button of the `shown`-th task in the view, as the page
      wires it: the view position goes straight to `toggleComplete`. */
  function ToggleShownAsWritten(tasks: seq<Task>, f: Filter, shown: nat): (r: seq<Task>)
    requires shown < |View(tasks, f)|
    ensures |r| == |tasks| && shown < |tasks|
    ensures r[shown].completed != tasks[shown].completed
    ensures r[shown].(completed := tasks[shown].completed) == tasks[shown]
    ensures forall j :: 0 <= j < |tasks| && j != shown ==> r[j] == tasks[j]
  {
    Toggle(tasks, shown)
  }

  /** The trash button of the `shown`-th task in the view, as the page
      wires it. */
  function DeleteShownAsWritten(tasks: seq<Task>, f: Filter, shown: nat, confirmed: bool): (r: seq<Task>)
    requires shown < |View(tasks, f)|
    ensures confirmed ==>
      && shown < |tasks|
      && |r| == |tasks| - 1
      && r[..shown] == tasks[..shown]
      && (forall j :: shown < j < |tasks| ==> r[j - 1] == tasks[j])
      && multiset(r) + multiset{tasks[shown]} == multiset(tasks)
    ensures !confirmed ==> r == tasks
  {
    Delete(tasks, shown, confirmed)
  }

  const Done: Task := Task("Read chapter 1", "", "2024-05-01", "09:00", "Study", true, false)
  const Open: Task := Task("Essay draft", "", "2024-05-02", "10:00", "Assignment", false, false)

  /** With one completed task before one pending task, the pending view
      shows only the pending task, yet its buttons act on the completed one:
      its check button re-opens the completed task and leaves the pending
      task pending, and its trash button deletes the completed task. */
  lemma ShownButtonsHitWrongTask()
    ensures View([Done, Open], Pending) == [Open]
    ensures ToggleShownAsWritten([Done, Open], Pending, 0) == [Done.(completed := false), Open]
    ensures DeleteShownAsWritten([Done, Open], Pending, 0, true) == [Open]
  {
    assert [Done, Open][..1] == [Done];
    assert View([Done], Pending) == [];
  }

  /** The check button as intended: flips the task drawn next to it, which
      sits at the `shown`-th shown position of the full list. */
  function ToggleShown(tasks: seq<Task>, f: Filter, shown: nat): (r: seq<Task>)
    requires shown < |View(tasks, f)|
    ensures |r| == |tasks|
    ensures var p := Positions(tasks, f)[shown];
      && tasks[p] == View(tasks, f)[shown]
      && r[p].completed != tasks[p].completed
      && r[p].(completed := tasks[p].completed) == tasks[p]
      && forall j :: 0 <= j < |tasks| && j != p ==> r[j] == tasks[j]
  {
    ViewIsPositions(tasks, f);
    Toggle(tasks, Positions(tasks, f)[shown])
  }

  /** The trash button as intended: once confirmed, removes the task drawn
      next to it and keeps every other task in order. */
  function DeleteShown(tasks: seq<Task>, f: Filter, shown: nat, confirmed: bool): (r: seq<Task>)
    requires shown < |View(tasks, f)|
    ensures !confirmed ==> r == tasks
    ensures confirmed ==>
      var p := Positions(tasks, f)[shown];
      && tasks[p] == View(tasks, f)[shown]
      && |r| == |tasks| - 1
      && r[..p] == tasks[..p]
      && (forall j :: p < j < |tasks| ==> r[j - 1] == tasks[j])
      && multiset(r) + multiset{View(tasks, f)[shown]} == multiset(tasks)
  {
    ViewIsPositions(tasks, f);
    Delete(tasks, Positions(tasks, f)[shown], confirmed)
  }

  /** Under the `all` filter the view position is the list position, so the
      page's buttons and the intended ones agree. */
  lemma AllFilterAgrees(tasks: seq<Task>, shown: nat, confirmed: bool)
    requires shown < |tasks|
    ensures ToggleShownAsWritten(tasks, All, shown) == ToggleShown(tasks, All, shown)
    ensures DeleteShownAsWritten(tasks, All, shown, confirmed) == DeleteShown(tasks, All, shown, confirmed)
  {
    ViewIsPositions(tasks, All);
    PositionsOfAll(tasks);
  }

  /** With every task shown, the k-th shown position is k. */
  lemma {:induction false} PositionsOfAll(tasks: seq<Task>)
    ensures |Positions(tasks, All)| == |tasks|
    ensures forall k :: 0 <= k < |tasks| ==> Positions(tasks, All)[k] == k
  {
    if |tasks| > 0 {
      PositionsOfAll(tasks[..|tasks| - 1]);
    }
  }

  /** The corrected check button fixes the example: the pending task is
      completed and the completed one is untouched. */
  lemma ShownButtonsFixed()
    ensures ToggleShown([Done, Open], Pending, 0) == [Done, Open.(completed := true)]
    ensures DeleteShown([Done, Open], Pending, 0, true) == [Done]
  {
    assert [Done, Open][..1] == [Done];
    assert View([Done], Pending) == [];
    assert Positions([Done], Pending) == [];
    assert Positions([Done, Open], Pending) == [1];
  }
}

=== FILE: text.dfy ===
/**
 * String helpers the page relies on: `String.prototype.split` with a
 * one-character separator and `String.prototype.trim`.
 */
module Text {

  /** The characters ECMAScript's `trim` removes: its WhiteSpace and
      LineTerminator productions (tab, vertical tab, form feed, space,
      no-break space, byte order mark, the Unicode Zs category, LF, CR,
      line and paragraph separators). */
  predicate IsTrimmable(c: char) {
    var k := c as int;
    || k == 0x09 || k == 0x0B || k == 0x0C || k == 0x20 || k == 0xA0 || k == 0xFEFF
    || k == 0x1680 || (0x2000 <= k <= 0x200A) || k == 0x202F || k == 0x205F || k == 0x3000
    || k == 0x0A || k == 0x0D || k == 0x2028 || k == 0x2029
  }

  /** Drops trimmable characters from the front. */
  function TrimStart(s: string): (r: string)
    ensures |r| <= |s| && r == s[|s| - |r|..]
    ensures forall i :: 0 <= i < |s| - |r| ==> IsTrimmable(s[i])
    ensures |r| > 0 ==> !IsTrimmable(r[0])
  {
    if |s| > 0 && IsTrimmable(s[0]) then TrimStart(s[1..]) else s
  }

  /** Drops trimmable characters from the back. */
  function TrimEnd(s: string): (r: string)
    ensures |r| <= |s| && r == s[..|r|]
    ensures forall i :: |r| <= i < |s| ==> IsTrimmable(s[i])
    ensures |r| > 0 ==> !IsTrimmable(r[|r| - 1])
  {
    if |s| > 0 && IsTrimmable(s[|s| - 1]) then TrimEnd(s[..|s| - 1]) else s
  }

  /** `r` sits at position `i` of `s`, every character of `s` before or
      after it is trimmable, and `r` neither starts nor ends with one. */
  predicate TrimmedAt(s: string, r: string, i: int)
  {
    && 0 <= i <= |s| - |r|
    && r == s[i..i + |r|]
    && (forall k :: 0 <= k < i ==> IsTrimmable(s[k]))
    && (forall k :: i + |r| <= k < |s| ==> IsTrimmable(s[k]))
    && (|r| > 0 ==> !IsTrimmable(r[0]) && !IsTrimmable(r[|r| - 1]))
  }

  /** `r` is `s` with its leading and trailing white space removed. */
  predicate IsTrimOf(s: string, r: string)
  {
    exists i :: 0 <= i <= |s| && TrimmedAt(s, r, i)
  }

  /** `String.prototype.trim`: drops the white space at both ends and
      nothing else. */
  function Trim(s: string): (r: string)
    ensures IsTrimOf(s, r)
  {
    var t := TrimStart(s);
    var r := TrimEnd(t);
    var i := |s| - |t|;
    assert r == s[i..i + |r|];
    assert forall k :: i + |r| <= k < |s| ==> s[k] == t[k - i];
    assert TrimmedAt(s, r, i);
    r
  }

  /** Two ways of dropping white space from both ends of `s` agree. */
  lemma TrimmedAtUnique(s: string, r1: string, i1: int, r2: string, i2: int)
    requires TrimmedAt(s, r1, i1) && TrimmedAt(s, r2, i2)
    ensures r1 == r2
  {
    assert |r1| > 0 ==> s[i1] == r1[0] && s[i1 + |r1| - 1] == r1[|r1| - 1];
    assert |r2| > 0 ==> s[i2] == r2[0] && s[i2 + |r2| - 1] == r2[|r2| - 1];
  }

  /** The characterisation pins `trim` down: any string that is `s` without
      its leading and trailing white space is `Trim(s)`. */
  lemma TrimIsUnique(s: string, r: string)
    requires IsTrimOf(s, r)
    ensures r == Trim(s)
  {
    var i :| TrimmedAt(s, r, i);
    var j :| TrimmedAt(s, Trim(s), j);
    TrimmedAtUnique(s, r, i, Trim(s), j);
  }

  /** Trimming twice is trimming once. */
  lemma TrimIdempotent(s: string)
    ensures Trim(Trim(s)) == Trim(s)
  {
    var r := Trim(s);
    var i :| TrimmedAt(s, r, i);
    assert TrimmedAt(r, r, 0);
    TrimIsUnique(r, r);
  }

  /** `pieces.join(sep)` for a one-character separator. */
  function Join(pieces: seq<string>, sep: char): string
  {
    if |pieces| == 0 then ""
    else if |pieces| == 1 then pieces[0]
    else pieces[0] + [sep] + Join(pieces[1..], sep)
  }

  /** `s.split(sep)` for a one-character separator: the maximal runs between
      separators, never an empty list (the empty string splits to `[""]`). */
  function Split(s: string, sep: char): (r: seq<string>)
    ensures |r| >= 1
    ensures forall i :: 0 <= i < |r| ==> sep !in r[i]
  {
    if |s| == 0 then [""]
    else if s[0] == sep then [""] + Split(s[1..], sep)
    else
      var rest := Split(s[1..], sep);
      [[s[0]] + rest[0]] + rest[1..]
  }

  /** Joining the pieces with the separator gives the string back. */
  lemma {:induction false} JoinSplit(s: string, sep: char)
    ensures Join(Split(s, sep), sep) == s
  {
    if |s| > 0 {
      var rest := Split(s[1..], sep);
      JoinSplit(s[1..], sep);
      assert s == [s[0]] + s[1..];
      if s[0] != sep {
        var r := [[s[0]] + rest[0]] + rest[1..];
        assert r[1..] == rest[1..];
        if |rest| > 1 {
          assert rest == [rest[0]] + rest[1..];
          assert Join(rest, sep) == rest[0] + [sep] + Join(rest[1..], sep);
        }
      }
    }
  }

  /** Splitting a string whose first `|p|` characters hold no separator keeps
      `p` at the front of the first piece. */
  lemma {:induction false} SplitPrefix(p: string, t: string, sep: char)
    requires sep !in p
    ensures Split(p + t, sep) == [p + Split(t, sep)[0]] + Split(t, sep)[1..]
  {
    if |p| > 0 {
      assert (p + t)[1..] == p[1..] + t;
      SplitPrefix(p[1..], t, sep);
      var r := Split(t, sep);
      var rest := Split(p[1..] + t, sep);
      assert (p + t)[0] == p[0] != sep;
      assert rest[0] == p[1..] + r[0] && rest[1..] == r[1..];
      assert p + r[0] == [p[0]] + (p[1..] + r[0]);
    } else {
      var r := Split(t, sep);
      assert r == [r[0]] + r[1..];
      assert p + t == t && p + r[0] == r[0];
    }
  }

  /** Splitting at a first separator peels off the piece before it. */
  lemma SplitAtFirst(p: string, rest: string, sep: char)
    requires sep !in p
    ensures Split(p + [sep] + rest, sep) == [p] + Split(rest, sep)
  {
    var t := [sep] + rest;
    assert p + [sep] + rest == p + t;
    SplitPrefix(p, t, sep);
    assert t[0] == sep && t[1..] == rest;
    assert Split(t, sep) == [""] + Split(rest, sep);
    assert p + "" == p;
  }

  /** The other half of the round trip: pieces free of the separator come
      back unchanged from splitting their join. */
  lemma {:induction false} SplitJoin(pieces: seq<string>, sep: char)
    requires |pieces| >= 1
    requires forall i :: 0 <= i < |pieces| ==> sep !in pieces[i]
    ensures Split(Join(pieces, sep), sep) == pieces
  {
    if |pieces| == 1 {
      SplitPrefix(pieces[0], "", sep);
      assert pieces[0] + "" == pieces[0];
    } else {
      var rest := Join(pieces[1..], sep);
      SplitJoin(pieces[1..], sep);
      assert pieces[0] + [sep] + rest == pieces[0] + ([sep] + rest);
      SplitPrefix(pieces[0], [sep] + rest, sep);
      assert ([sep] + rest)[0] == sep && ([sep] + rest)[1..] == rest;
      var tail := Split([sep] + rest, sep);
      assert tail == [""] + pieces[1..];
      assert pieces[0] + tail[0] == pieces[0];
      assert pieces == [pieces[0]] + pieces[1..];
    }
  }

  /** Two separator-free pieces around one separator split back apart. */
  lemma SplitPair(a: string, b: string, sep: char)
    requires sep !in a && sep !in b
    ensures Split(a + [sep] + b, sep) == [a, b]
  {
    SplitAtFirst(a, b, sep);
    SplitPrefix(b, "", sep);
    assert b + "" == b;
  }

  /** Three separator-free pieces joined by the separator split back apart. */
  lemma SplitTriple(a: string, b: string, c: string, sep: char)
    requires sep !in a && sep !in b && sep !in c
    ensures Split(a + [sep] + b + [sep] + c, sep) == [a, b, c]
  {
    assert a + [sep] + b + [sep] + c == a + [sep] + (b + [sep] + c);
    SplitAtFirst(a, b + [sep] + c, sep);
    SplitPair(b, c, sep);
  }
}

=== FILE: timer.dfy ===
/**
 * The study countdown: a remaining number of seconds and whether the
 * countdown is running, driven by the start/pause button, the reset button
 * and the once-a-second tick of the running countdown.
 */
module Timer {
  import opened Wrappers
  import Numerals

  /** 25 minutes, in seconds. */
  const DefaultSeconds: int := 1500

  /** The text the reset writes into the display. */
  const ResetDisplay: string := "25:00"

  datatype TimerState = TimerState(remaining: int, running: bool)
  {
    /** Every state the page can reach: at least a second left, at most the
        full 25 minutes. */
    predicate Valid() {
      1 <= remaining <= DefaultSeconds
    }
  }

  /** The state at page load and after every reset. */
  const Initial: TimerState := TimerState(DefaultSeconds, false)

  /** `startTimer`: a no-op while running, otherwise resumes the countdown
      from where it stands. */
  function Start(s: TimerState): (r: TimerState)
    ensures s.running ==> r == s
    ensures r.running && r.remaining == s.remaining
  {
    if s.running then s else s.(running := true)
  }

  /** `pauseTimer`: stops the countdown and keeps the remaining time. */
  function Pause(s: TimerState): (r: TimerState)
    ensures !r.running && r.remaining == s.remaining
  {
    s.(running := false)
  }

  /** `resetTimer`: whatever the state, back to 25 minutes, stopped. */
  function Reset(s: TimerState): (r: TimerState)
    ensures r.Valid() && !r.running && r.remaining == DefaultSeconds
  {
    Initial
  }

  /** The start/pause button: pauses a running countdown, starts a stopped one. */
  function Press(s: TimerState): (r: TimerState)
    ensures r.remaining == s.remaining
    ensures r.running == !s.running
  {
    if s.running then Pause(s) else Start(s)
  }

  /** Pressing the button twice returns to the same state. */
  lemma PressTwice(s: TimerState)
    ensures Press(Press(s)) == s
  {
  }

  /** The state one tick leaves: one second less, or, on reaching zero,
      the reset state. */
  function Next(s: TimerState): (r: TimerState)
    requires s.Valid() && s.running
    ensures r.Valid()
    ensures s.remaining > 1 ==> r == TimerState(s.remaining - 1, true)
    ensures s.remaining == 1 ==> r == Initial
  {
    var left := s.remaining - 1;
    if left <= 0 then Reset(s) else s.(remaining := left)
  }

  /** What one tick leaves behind: the new state, the display text, and
      whether the countdown just completed (notification and alarm). */
  datatype TickResult = TickResult(state: TimerState, display: string, finished: bool)

  /** One call of the interval callback: one second less, shown as `MM:SS`;
      on reaching zero the countdown completes and resets. */
  function Tick(s: TimerState): (t: TickResult)
    requires s.Valid() && s.running
    ensures t.state == Next(s)
    ensures t.finished <==> s.remaining == 1
    ensures !t.finished ==> Numerals.ParseSexagesimal(t.display) == Some(s.remaining - 1)
    ensures !t.finished ==> |t.display| == 5 && t.display[2] == ':'
    ensures t.finished ==> t.display == ResetDisplay
  {
    var left := s.remaining - 1;
    if left <= 0 then TickResult(Next(s), ResetDisplay, true)
    else
      Numerals.SexagesimalRoundTrip(left);
      TickResult(Next(s), Numerals.SexagesimalLabel(left), false)
  }

  /** The reset text is the ordinary display of the full 25 minutes. */
  lemma ResetDisplayIsLabel()
    ensures Numerals.SexagesimalLabel(DefaultSeconds) == ResetDisplay
  {
    assert DefaultSeconds / 60 == 25 && DefaultSeconds % 60 == 0;
    assert Numerals.DigitChar(2) == '2' && Numerals.DigitChar(5) == '5' && Numerals.DigitChar(0) == '0';
    assert Numerals.Digits(2) == "2";
    assert Numerals.Digits(25) == Numerals.Digits(2) + "5" == "25";
    assert Numerals.Padded(25) == "25";
    assert Numerals.Padded(0) == "00";
  }

  /** The reset button: the reset state together with the text it writes
      into the display, which is the ordinary label of the restored time. */
  function ResetButton(s: TimerState): (r: (TimerState, string))
    ensures r.0 == Reset(s)
    ensures r.1 == Numerals.SexagesimalLabel(r.0.remaining)
    ensures Numerals.ParseSexagesimal(r.1) == Some(r.0.remaining)
  {
    ResetDisplayIsLabel();
    Numerals.SexagesimalRoundTrip(DefaultSeconds);
    (Reset(s), ResetDisplay)
  }

  /** `k` ticks in a row; ticks stop once the countdown is no longer running. */
  function Run(s: TimerState, k: nat): (r: TimerState)
    requires s.Valid()
    ensures r.Valid()
    decreases k
  {
    if k == 0 || !s.running then s else Run(Next(s), k - 1)
  }

  /** Every operation keeps the timer within 1..1500 seconds. */
  lemma ValidPreserved(s: TimerState)
    requires s.Valid()
    ensures Start(s).Valid() && Pause(s).Valid() && Reset(s).Valid() && Press(s).Valid()
  {
  }

  /** A running countdown with `n` seconds left counts down one per tick and
      completes, stopped and back at 25 minutes, on exactly the `n`-th tick. */
  lemma {:induction false} Countdown(s: TimerState, k: nat)
    requires s.Valid() && s.running && k <= s.remaining
    ensures k < s.remaining ==> Run(s, k) == TimerState(s.remaining - k, true)
    ensures k == s.remaining ==> Run(s, k) == Initial
    decreases k
  {
    if k > 0 && s.remaining > 1 {
      Countdown(Next(s), k - 1);
    }
  }
}

=== FILE: timetable.dfy ===
/**
 * The daily timetable generator: a study window from a start to an end time
 * is cut into one equal block per subject, with a fixed break between
 * consecutive subjects, or the request is rejected.
 */
module Timetable {
  import opened Wrappers
  import Text
  import Numerals

  /** A time-input value after its hour and minute fields are read. */
  datatype ClockTime = ClockTime(hour: nat, minute: nat)

  function MinutesOf(t: ClockTime): (m: nat)
    ensures t.minute < 60 ==> m / 60 == t.hour && m % 60 == t.minute
  {
    t.hour * 60 + t.minute
  }

  datatype Activity = Study(subject: string) | Break

  /** One row of the schedule, `[start, end)` in minutes since midnight. */
  datatype Block = Block(activity: Activity, start: int, end: int)

  datatype ScheduleError =
    | EndNotAfterStart  // "End time must be after start time!"
    | NotEnoughTime     // "Not enough time for all subjects! ..."

  datatype Outcome = Scheduled(blocks: seq<Block>) | Rejected(error: ScheduleError)

  /** The fixed break between two subjects, in minutes. */
  const BreakMinutes: nat := 15

  /** The shortest subject block the generator accepts, in minutes. */
  const MinBlockMinutes: int := 15

  /** `Math.floor((total - 15*(n-1)) / n)`: the largest block length for
      which `n` blocks and `n-1` breaks still fit in `total` minutes. */
  function BlockMinutes(total: int, n: nat): (len: int)
    requires n >= 1
    ensures n * len <= total - BreakMinutes * (n - 1) < n * len + n
  {
    (total - BreakMinutes * (n - 1)) / n
  }

  /** Even rows are the subjects in input order, each `len` minutes long. */
  ghost predicate SubjectRows(blocks: seq<Block>, subjects: seq<string>, len: int)
  {
    forall k :: 0 <= k < |blocks| && k % 2 == 0 ==>
      k / 2 < |subjects| && blocks[k].activity == Study(subjects[k / 2])
      && blocks[k].end == blocks[k].start + len
  }

  /** Odd rows are breaks of `BreakMinutes`. */
  ghost predicate BreakRows(blocks: seq<Block>)
  {
    forall k :: 0 <= k < |blocks| && k % 2 == 1 ==>
      blocks[k].activity == Break && blocks[k].end == blocks[k].start + BreakMinutes
  }

  /** Each row starts where the previous one ends. */
  ghost predicate Contiguous(blocks: seq<Block>)
  {
    forall k :: 0 <= k < |blocks| - 1 ==> blocks[k].end == blocks[k + 1].start
  }

  /** `blocks` is the timetable for `subjects` starting at `start` with
      blocks of `len` minutes: subject and break rows alternate, the i-th
      subject row carries the i-th subject, every subject row lasts `len`
      minutes and every break `BreakMinutes`, there is no break after the
      last subject (the row count is odd), and the rows tile the time from
      `start` without gaps or overlaps. */
  ghost predicate IsSchedule(blocks: seq<Block>, subjects: seq<string>, start: int, len: int)
  {
    && |subjects| >= 1
    && |blocks| == 2 * |subjects| - 1
    && blocks[0].start == start
    && SubjectRows(blocks, subjects, len)
    && BreakRows(blocks)
    && Contiguous(blocks)
  }

  /** The walk over the subjects in input order from `cursor`: a subject
      block, then a break unless it was the last subject. */
  function Walk(subjects: seq<string>, cursor: int, len: int): (blocks: seq<Block>)
    requires |subjects| >= 1
    ensures |blocks| == 2 * |subjects| - 1
    ensures blocks[0] == Block(Study(subjects[0]), cursor, cursor + len)
    ensures blocks[|blocks| - 1].activity == Study(subjects[|subjects| - 1])
    decreases |subjects|
  {
    var study := Block(Study(subjects[0]), cursor, cursor + len);
    if |subjects| == 1 then [study]
    else
      var pause := Block(Break, cursor + len, cursor + len + BreakMinutes);
      [study, pause] + Walk(subjects[1..], cursor + len + BreakMinutes, len)
  }

  lemma PrependSubjectRows(head: seq<Block>, rest: seq<Block>, subjects: seq<string>, len: int)
    requires |head| == 2 && |subjects| >= 1
    requires head[0].activity == Study(subjects[0]) && head[0].end == head[0].start + len
    requires SubjectRows(rest, subjects[1..], len)
    ensures SubjectRows(head + rest, subjects, len)
  {
    var blocks := head + rest;
    forall k | 0 <= k < |blocks| && k % 2 == 0
      ensures k / 2 < |subjects| && blocks[k].activity == Study(subjects[k / 2])
      ensures blocks[k].end == blocks[k].start + len
    {
      if k >= 2 {
        assert blocks[k] == rest[k - 2];
        assert (k - 2) % 2 == 0 && (k - 2) / 2 == k / 2 - 1;
      }
    }
  }

  lemma PrependBreakRows(head: seq<Block>, rest: seq<Block>)
    requires |head| == 2
    requires head[1].activity == Break && head[1].end == head[1].start + BreakMinutes
    requires BreakRows(rest)
    ensures BreakRows(head + rest)
  {
    var blocks := head + rest;
    forall k | 0 <= k < |blocks| && k % 2 == 1
      ensures blocks[k].activity == Break && blocks[k].end == blocks[k].start + BreakMinutes
    {
      if k >= 2 {
        assert blocks[k] == rest[k - 2];
        assert (k - 2) % 2 == 1;
      }
    }
  }

  lemma PrependContiguous(head: seq<Block>, rest: seq<Block>)
    requires |head| == 2 && |rest| >= 1
    requires head[0].end == head[1].start && head[1].end == rest[0].start
    requires Contiguous(rest)
    ensures Contiguous(head + rest)
  {
    var blocks := head + rest;
    forall k | 0 <= k < |blocks| - 1
      ensures blocks[k].end == blocks[k + 1].start
    {
      if k >= 2 {
        assert blocks[k] == rest[k - 2] && blocks[k + 1] == rest[k - 1];
      }
    }
  }

  /** The walk lays out exactly the schedule described by `IsSchedule`,
      ending `n` blocks and `n-1` breaks after the cursor. */
  lemma {:induction false} WalkIsSchedule(subjects: seq<string>, cursor: int, len: int)
    requires |subjects| >= 1
    ensures IsSchedule(Walk(subjects, cursor, len), subjects, cursor, len)
    decreases |subjects|
  {
    var blocks := Walk(subjects, cursor, len);
    if |subjects| > 1 {
      var next := cursor + len + BreakMinutes;
      var head := [Block(Study(subjects[0]), cursor, cursor + len), Block(Break, cursor + len, next)];
      var rest := Walk(subjects[1..], next, len);
      WalkIsSchedule(subjects[1..], next, len);
      assert blocks == head + rest;
      PrependSubjectRows(head, rest, subjects, len);
      PrependBreakRows(head, rest);
      PrependContiguous(head, rest);
    }
  }

  /** The walk ends `n` blocks and `n-1` breaks after the cursor. */
  lemma {:induction false} WalkEnd(subjects: seq<string>, cursor: int, len: int)
    requires |subjects| >= 1
    ensures Walk(subjects, cursor, len)[2 * |subjects| - 2].end
         == cursor + |subjects| * len + BreakMinutes * (|subjects| - 1)
    decreases |subjects|
  {
    if |subjects| > 1 {
      var next := cursor + len + BreakMinutes;
      var rest := Walk(subjects[1..], next, len);
      var n := |subjects|;
      assert Walk(subjects, cursor, len)[2 * n - 2] == rest[2 * (n - 1) - 2] by {
        assert Walk(subjects, cursor, len) == [Block(Study(subjects[0]), cursor, cursor + len),
                                               Block(Break, cursor + len, next)] + rest;
      }
      WalkEnd(subjects[1..], next, len);
      MulStep(n, len);
    }
  }

  lemma MulStep(n: int, len: int)
    ensures n * len == len + (n - 1) * len
  {
  }

  /** `generateTimetable` on parsed inputs. */
  function Generate(start: ClockTime, end: ClockTime, subjects: seq<string>): (r: Outcome)
    requires |subjects| >= 1
    ensures r == Rejected(EndNotAfterStart) <==> MinutesOf(end) <= MinutesOf(start)
    ensures r == Rejected(NotEnoughTime)
        <==> MinutesOf(end) > MinutesOf(start)
             && BlockMinutes(MinutesOf(end) - MinutesOf(start), |subjects|) < MinBlockMinutes
    ensures r.Scheduled? ==>
      var len := BlockMinutes(MinutesOf(end) - MinutesOf(start), |subjects|);
      && |r.blocks| == 2 * |subjects| - 1
      && var last := r.blocks[|r.blocks| - 1].end;
      && len >= MinBlockMinutes
      && IsSchedule(r.blocks, subjects, MinutesOf(start), len)
      && last <= MinutesOf(end)
      && MinutesOf(end) - last < |subjects|
  {
    var startM, endM := MinutesOf(start), MinutesOf(end);
    var total := endM - startM;
    if total <= 0 then Rejected(EndNotAfterStart)
    else
      var len := BlockMinutes(total, |subjects|);
      if len < MinBlockMinutes then Rejected(NotEnoughTime)
      else
        WalkIsSchedule(subjects, startM, len);
        WalkEnd(subjects, startM, len);
        Scheduled(Walk(subjects, startM, len))
  }

  /** `subjects.value.split(',').map(s => s.trim())`: never empty, one entry
      per comma-separated field, each without surrounding white space. */
  function SubjectsOf(field: string): (subjects: seq<string>)
    ensures |subjects| == |Text.Split(field, ',')| >= 1
    ensures forall i :: 0 <= i < |subjects| ==> Text.IsTrimOf(Text.Split(field, ',')[i], subjects[i])
  {
    var fields := Text.Split(field, ',');
    seq(|fields|, i requires 0 <= i < |fields| => Text.Trim(fields[i]))
  }

  /** The whole form submission: two time inputs and the subject text. */
  function GenerateFromForm(start: ClockTime, end: ClockTime, subjectsField: string): (r: Outcome)
    ensures var subjects, total := SubjectsOf(subjectsField), MinutesOf(end) - MinutesOf(start);
      && |subjects| == |Text.Split(subjectsField, ',')|
      && (r == Rejected(EndNotAfterStart) <==> total <= 0)
      && (r == Rejected(NotEnoughTime) <==> total > 0 && BlockMinutes(total, |subjects|) < MinBlockMinutes)
      && (r.Scheduled? ==> IsSchedule(r.blocks, subjects, MinutesOf(start), BlockMinutes(total, |subjects|)))
  {
    Generate(start, end, SubjectsOf(subjectsField))
  }

  /** The time cell of a row: `HH:MM - HH:MM`. */
  function RowTime(start: nat, end: nat): (cell: string)
    ensures ParseRowTime(cell) == Some((start, end))
    ensures start < 6000 && end < 6000 ==>
      && |cell| == 13 && cell[2] == ':' && cell[5..8] == " - " && cell[10] == ':'
      && (forall k :: k in {0, 1, 3, 4, 8, 9, 11, 12} ==> Numerals.IsDigit(cell[k]))
  {
    var a, b := Numerals.SexagesimalLabel(start), Numerals.SexagesimalLabel(end);
    LabelHasNoSpace(start);
    LabelHasNoSpace(end);
    Numerals.SexagesimalRoundTrip(start);
    Numerals.SexagesimalRoundTrip(end);
    ParseCell(a, b);
    a + " - " + b
  }

  /** Reads a time cell back into its start and end minutes. */
  function ParseRowTime(s: string): Option<(nat, nat)>
  {
    var parts := Text.Split(s, ' ');
    if |parts| != 3 || parts[1] != "-" then None
    else
      match (Numerals.ParseSexagesimal(parts[0]), Numerals.ParseSexagesimal(parts[2]))
      case (Some(a), Some(b)) => Some((a, b))
      case _ => None
  }

  lemma LabelHasNoSpace(x: nat)
    ensures ' ' !in Numerals.SexagesimalLabel(x)
  {
    var a, b := Numerals.Padded(x / 60), Numerals.Padded(x % 60);
    Numerals.DigitsHaveNoColon(a);
    Numerals.DigitsHaveNoColon(b);
    assert Numerals.SexagesimalLabel(x) == a + [':'] + b;
  }

  /** A cell of two space-free labels around ` - ` splits back into them. */
  lemma ParseCell(a: string, b: string)
    requires ' ' !in a && ' ' !in b
    ensures Numerals.ParseSexagesimal(a).Some? && Numerals.ParseSexagesimal(b).Some? ==>
      ParseRowTime(a + " - " + b)
        == Some((Numerals.ParseSexagesimal(a).value, Numerals.ParseSexagesimal(b).value))
  {
    assert a + " - " + b == a + [' '] + "-" + [' '] + b;
    Text.SplitTriple(a, "-", b, ' ');
  }

  /** A table row: the time cell and what happens in it. */
  datatype Row = Row(time: string, activity: Activity)

  /** Every block has non-negative boundaries, as it has whenever the
      schedule starts at a time of day. */
  ghost predicate NonNegative(blocks: seq<Block>)
  {
    forall k :: 0 <= k < |blocks| ==> 0 <= blocks[k].start && 0 <= blocks[k].end
  }

  /** The table body for a generated schedule, one row per block: each row
      shows its block's activity, and its time cell reads back as exactly
      that block's boundaries. */
  function Rows(blocks: seq<Block>): (rows: seq<Row>)
    requires NonNegative(blocks)
    ensures |rows| == |blocks|
    ensures forall k :: 0 <= k < |blocks| ==>
      rows[k].activity == blocks[k].activity
      && ParseRowTime(rows[k].time) == Some((blocks[k].start as nat, blocks[k].end as nat))
  {
    seq(|blocks|, k requires 0 <= k < |blocks| =>
      Row(RowTime(blocks[k].start, blocks[k].end), blocks[k].activity))
  }

  /** A schedule starting at a time of day has no negative boundary, so
      every block gets a row. */
  lemma ScheduleIsNonNegative(blocks: seq<Block>, subjects: seq<string>, start: nat, len: int)
    requires IsSchedule(blocks, subjects, start, len)
    requires len >= MinBlockMinutes
    ensures forall k :: 0 <= k < |blocks| ==> start <= blocks[k].start < blocks[k].end
  {
    var k := 0;
    while k < |blocks|
      invariant 0 <= k <= |blocks|
      invariant forall j :: 0 <= j < k ==> start <= blocks[j].start < blocks[j].end
    {
      if k > 0 {
        assert blocks[k - 1].end == blocks[k].start;
      }
      k := k + 1;
    }
  }

  /** Every generated timetable can be drawn: the table has one row per
      block, the first cell opens at the start time, and each cell reads
      back as its block's boundaries. */
  lemma GeneratedTable(start: ClockTime, end: ClockTime, subjects: seq<string>)
    requires |subjects| >= 1
    ensures var r := Generate(start, end, subjects);
      r.Scheduled? ==>
        && NonNegative(r.blocks)
        && |Rows(r.blocks)| == 2 * |subjects| - 1
        && Rows(r.blocks)[0].activity == Study(subjects[0])
        && ParseRowTime(Rows(r.blocks)[0].time) == Some((MinutesOf(start), r.blocks[0].end as nat))
        && forall k :: 0 <= k < |r.blocks| ==>
             ParseRowTime(Rows(r.blocks)[k].time) == Some((r.blocks[k].start as nat, r.blocks[k].end as nat))
  {
    var r := Generate(start, end, subjects);
    if r.Scheduled? {
      var len := BlockMinutes(MinutesOf(end) - MinutesOf(start), |subjects|);
      ScheduleIsNonNegative(r.blocks, subjects, MinutesOf(start), len);
    }
  }
}

/** Worked cases of the generator. */
module TimetableExamples {
  import opened Timetable

  /** 09:00-17:00 with four subjects: 108-minute blocks, the first from
      09:00 to 10:48, then a break to 11:03, the last ending by 17:00. */
  lemma FullDay()
    ensures var r := Generate(ClockTime(9, 0), ClockTime(17, 0), ["Math", "Physics", "Chemistry", "Biology"]);
      && r.Scheduled? && |r.blocks| == 7
      && r.blocks[0] == Block(Study("Math"), 540, 648)
      && r.blocks[1] == Block(Break, 648, 663)
      && r.blocks[6].activity == Study("Biology") && r.blocks[6].end == 1017
  {
    var subjects := ["Math", "Physics", "Chemistry", "Biology"];
    assert BlockMinutes(480, 4) == 108;
    var r := Generate(ClockTime(9, 0), ClockTime(17, 0), subjects);
    assert r.Scheduled? && IsSchedule(r.blocks, subjects, 540, 108);
    assert r.blocks[6].activity == Study(subjects[3]);
  }

  /** Ten minutes for a single subject is rejected: the 15-minute minimum
      block applies even when there are no breaks to fit. */
  lemma SingleSubject()
    ensures Generate(ClockTime(9, 0), ClockTime(9, 10), ["Math"])
         == Rejected(NotEnoughTime)
  {
  }

  /** Two subjects in five minutes do not fit. */
  lemma TooShort()
    ensures Generate(ClockTime(9, 0), ClockTime(9, 5), ["Math", "Physics"]) == Rejected(NotEnoughTime)
  {
  }

  /** An end before the start is rejected before anything else. */
  lemma Backwards()
    ensures Generate(ClockTime(17, 0), ClockTime(9, 0), ["Math"]) == Rejected(EndNotAfterStart)
  {
  }
}

=== FILE: wrappers.dfy ===
/** The optional-value datatype shared by the parsers and the due-time input. */
module Wrappers {

  datatype Option<+T> = None | Some(value: T)
}
